=== FILE: README.md ===
# Three on a 2x3 board: transition rules and the expectimax solver step

This project models the core of a solver for a "Threes"-like tile-merging puzzle
played on a 2x3 board, and proves properties of that model in Dafny.

- **Board rules.** Cells hold ranks. 0 is empty; 1, 2 and 3 are the tiles the
  bag draws and `place` accepts; a rank t >= 3 is worth 3^(t-2) points. A 3
  also arises from a 1+2 merge, and ranks above 3 arise only from merges. A tile
  can be placed, and the board can slide in four directions. Up and left are the
  primitive slides; right and down reflect the board, slide, and reflect back.
  The reward of a slide is -1 when nothing moves, otherwise the score difference.
- **Solver step.** The solver runs an expectimax search over two kinds of state:
  - a before-state is the player's choice among the legal slides;
  - an after-state places the hinted tile into the edge the slide vacated, then
    branches over every rank the three-slot bag can still draw.

  Results are memoised in a flat table. The key packs six 4-bit cells, a 2-bit
  hint and a 3-bit tag naming the transition that produced the state. Lookup
  probes the four reflections of the cells, keeping hint and tag as given. A
  separate lookup-only query answers a state from the table.

Modules:

- `Grid` (`grid.dfy`): the board, `Place`, the merge `Step`, the slides, the
  reflections and the score. Every mutator is a pure function returning the board
  afterwards with the reward, and -1 keeps its meaning of "illegal".
- `GridLaws` (`grid_laws.dfy`): algebraic laws of the board. These cover the
  involutions, commutation of slides with reflections, the reward as merge gain,
  the tile count, conservation of the tiles' total face value (1, 2, 3, 6,
  12, ...), which pins what a shift carries, and opcode periodicity.
- `Key` (`key.dfy`): the action enum, the packed key, and its decoding, with
  injectivity and bounds.
- `Memo` (`memo.dfy`): the table as `map<int, Answer>`, where an absent key is an
  unset (NaN) entry. Also the four-way probe, the lookup-only query, and their
  behaviour under reflections.
- `Search` (`search.dfy`): one node of the recursive search. This covers the bag,
  the eligible cells, the children of each kind of state, the best-branch choice,
  the min/mean/max aggregation, and the memoised step.
- `SearchLaws` (`search_laws.dfy`): properties relating the step to the board
  rules and to the query.

The children's answers are a function argument `child: Node -> Option<Answer>`,
so a node's step is modelled without the recursion that produces them. An unset
answer (NaN average in the source) is `None`.

Two behaviours of the query follow directly from the code:

- A query declared neither before nor after (an illegal state) is not rejected.
  It falls into the after-state branch and probes the four slide tags
  (solver.h:95-102).
- A query for a board without a hint (stored value 0) probes with hint -1
  (solver.h:96). For any board other than the all-empty one whose cells are
  below 16, every probed key is a valid table index whose hint field reads 3.
  Whatever the cells, no stored key has that hint field, so the query finds
  nothing (`SearchLaws.SolveWithoutHint`). For the all-empty board the probed
  keys are -8 to -4, before the start of the table
  (`SearchLaws.NoHintKeyRange`): the code reads outside its array there.

## Model

| member | source | states |
|---|---|---|
| Grid.SetCell | board.h:34-35 | overwriting cell i gives value v there and leaves the other five cells as they were |
| Grid.Place | board.h:54-59 | reward -1 exactly when the position exceeds 5 or the tile is not 1, 2 or 3, with the board unchanged; otherwise reward 0, cell `pos` holds the tile and every other cell is unchanged |
| Grid.Step | board.h:80-89 | one pair changes exactly when it is movable (empty lead with a trailing tile, a 1 with a 2, or equal ranks >= 3); a change empties the trailing cell; the pair's score grows by exactly its merge gain; the number of occupied cells never grows; the faces shown (1, 2, then 3, 6, 12, ...) keep their sum, so a shift carries the trailing tile unchanged and a merge shows the sum of its two tiles |
| Grid.SlideRowLeft | board.h:79-90 | a row is unchanged exactly when neither adjacent pair is movable; a changed row always ends with an empty cell |
| Grid.SlideLeft | board.h:75-94 | reward -1 exactly when no pair in either row is movable, and then the board is unchanged; otherwise the board changed and the reward is the score difference, which is non-negative |
| Grid.SlideUp | board.h:95-111 | reward -1 exactly when no column pair is movable, and then the board is unchanged; otherwise the board changed and the reward is the non-negative score difference |
| Grid.SlideRight | board.h:113-118 | the reflected left slide is illegal exactly when no pair is movable towards the right, otherwise it changes the board and rewards the non-negative score difference |
| Grid.SlideDown | board.h:120-125 | the reflected up slide is illegal exactly when no pair is movable downwards, otherwise it changes the board and rewards the non-negative score difference |
| Grid.Slide | board.h:65-73 | reward -1 exactly when the board did not change; otherwise the reward is the non-negative score difference |
| GridLaws.ReflectHorizontalInvolution | board.h:127-131 | swapping the outer columns twice gives the board back |
| GridLaws.ReflectVerticalInvolution | board.h:133-137 | swapping the rows twice gives the board back |
| GridLaws.ReflectionsCommute | board.h:127-137 | the two reflections commute |
| GridLaws.ReverseInvolution | board.h:143 | the half turn is an involution |
| GridLaws.ReflectionsKeepScore | board.h:145-153 | both reflections keep the score and the number of tiles |
| GridLaws.SlideRightByRows | board.h:113-118 | sliding right equals processing each row from its right end, pair (2,1) then (1,0), with the reward computed from the result |
| GridLaws.SlideDownByColumns | board.h:120-125 | sliding down equals applying the merge step to each column with the bottom cell leading |
| GridLaws.SlideLeftCommutesVertical | board.h:77-91 | sliding left a row-swapped board gives the row-swapped result with the same reward |
| GridLaws.SlideUpCommutesHorizontal | board.h:97-108 | sliding up a column-mirrored board gives the column-mirrored result with the same reward |
| GridLaws.SlideLeftRewardIsMergeGain | board.h:80-93 | a legal left slide's reward is the sum of the merge gains of the pairs it processes: 3 per 1+2 merge, 3^(t-2) per merge of two rank-t tiles |
| GridLaws.SlideUpRewardIsMergeGain | board.h:98-110 | a legal up slide's reward is the sum of the three columns' merge gains |
| GridLaws.SlideLeftKeepsOrDropsTiles | board.h:77-91 | a left slide never increases the number of tiles |
| GridLaws.SlideUpKeepsOrDropsTiles | board.h:97-108 | an up slide never increases the number of tiles |
| GridLaws.SlideNeverAddsTiles | board.h:65-73 | no slide opcode increases the number of tiles |
| GridLaws.SlideLeftKeepsFace | board.h:75-94 | a left slide keeps the total face value of the board |
| GridLaws.SlideUpKeepsFace | board.h:95-111 | an up slide keeps the total face value of the board |
| GridLaws.SlideKeepsFace | board.h:65-73 | no slide opcode creates or destroys face value: tiles move unchanged or merge into one showing their sum |
| GridLaws.SlideOpcodeModulo | board.h:66 | opcodes that differ by a multiple of 4 give the same outcome |
| GridLaws.IllegalSlideRepeats | board.h:92 | once a slide is illegal, repeating it is illegal again with the same board |
| Key.ActionOf | solver.h:65 | the cast of a slide opcode names the action with that code, never the placement tag |
| Key.Hash | solver.h:206-220 | the low three bits of every key are the tag code, so no key equals the probe's -1 |
| Key.DecodeHash | solver.h:210-217 | for cells below 16 and hint below 4, the low 3 bits decode to the tag, the next 2 to the hint, and successive 4-bit fields to cells 5 back to 0 |
| Key.HashInjective | solver.h:206-220 | within those bounds, different (cells, hint, tag) give different keys |
| Key.HashFitsTable | solver.h:82 | within those bounds every key lies in [0, 2^29), inside the 800000000-entry table |
| Memo.CheckExist | solver.h:192-204 | -1 exactly when none of the four reflected keys is set; otherwise the first set key in the order identity, rows swapped, columns mirrored, both |
| Memo.ProbeKeepsTag | solver.h:195-201 | every probed key carries the query's own tag, even for the mirrored boards |
| Memo.CheckExistUnderReflections | solver.h:195-201 | the probe on a board and on any of its reflections, with the same hint and tag, agree on whether an entry is found |
| Memo.ProbeSlides | solver.h:98-101 | the after-state probe returns the probe result of the first slide tag whose probe finds an entry, or -1 when none does |
| Memo.Solve | solver.h:90-110 | a before-state query answers exactly when the placement-tag probe with hint info-1 finds an entry, and returns that entry; any other query answers exactly when some slide tag's probe finds one, and returns the entry of the first such tag |
| Memo.SolveFoundUnderReflections | solver.h:90-110 | a query on a board and on any reflection of it agree on whether an answer is found |
| Search.BagUpdate | solver.h:162-165 | after drawing rank `hint` some slot is drawable; when the other two slots were empty the bag restarts full, otherwise only the drawn slot is cleared |
| Search.Draws | solver.h:170-171 | the ranks iterated are exactly the nonzero slots, in increasing order |
| Search.EmptyCount | solver.h:166-167 | the count of empty listed cells is positive exactly when some listed cell is empty |
| Search.SlideChildren | solver.h:129-141 | every child of a before-state is the board after a legal slide, tagged with that slide, and children appear in opcode order |
| Search.PlaceEachSize | solver.h:166-181 | an after-state has one branch per (empty eligible cell, drawable rank) pair |
| Search.PlaceEachSound | solver.h:166-181 | every branch puts the tile into an empty listed cell of the original board and draws a listed rank |
| Search.PlaceEachComplete | solver.h:166-181 | every (empty listed cell, drawable rank) pair has its branch |
| Search.AfterChildren | solver.h:162-181 | the branches of an after-state are exactly the boards with tile hint+1 in one empty eligible cell, with the updated bag and each drawable rank as the next hint, and there are empty cells times drawable ranks of them |
| Search.ChooseBest | solver.h:125-138 | the kept answer has the greatest average of all set answers and strictly beats every earlier one; nothing is kept exactly when no set answer has an average above -1 |
| Search.Accumulate | solver.h:149-178 | the loop counts every branch, records any unset one, sums the averages, and keeps a minimum and maximum that bound every set branch and are either the sentinels or attained |
| Search.Combine | solver.h:149-182 | an after-state's answer is set exactly when it has branches and all are set; then its average is the mean of the branch averages, and its minimum and maximum are the bounds of the branches' minima and maxima, capped by the sentinels |
| Search.BuildStep | solver.h:113-190 | a probe hit returns the stored entry and leaves the table unchanged; a miss returns the node's computed answer and stores it at the node's own key only, and only when it is set; existing entries are never changed |
| Search.Store | solver.h:186-188 | writing a computed answer sets only the node's own key, and no other entry of the table appears, disappears or changes; storing an unset (NaN) answer leaves that key unset, clearing an entry that was set, and leaves an absent key absent with the table as it was |
| SearchLaws.EligibleCellsByAction | solver.h:151-159 | after up the bottom row, after down the top row, after right the left column, after left the right column |
| SearchLaws.SlideVacatesEdge | solver.h:151-159 | a legal slide always leaves an empty cell in the edge that receives the new tile |
| SearchLaws.BeforeChildIsLegalSlide | solver.h:129-140 | each child of a before-state is the board after a legal slide, with that slide's tag and the parent's bag and hint |
| SearchLaws.AfterSlideBranches | solver.h:166-182 | the after-state of any legal slide has at least one branch |
| SearchLaws.AfterStateOfLegalSlideBranches | solver.h:182 | so an after-state reached from a before-state never divides its sum by a zero count |
| SearchLaws.FirstCallBranches | solver.h:83 | the first call, with an empty board after an up slide, a full bag and hint rank 1, has six branches |
| SearchLaws.BagCycleRestarts | solver.h:162-165 | three draws of distinct ranks from a full bag leave it full again, with all three ranks drawable |
| SearchLaws.TerminalValue | solver.h:142-145 | a before-state with no legal slide is worth its score as minimum, average and maximum |
| SearchLaws.ChildIndex | solver.h:129-141 | every legal slide has a child, and exactly the children of lower opcodes precede it |
| SearchLaws.BestSlideValue | solver.h:124-141 | with a legal slide, a before-state's answer is the answer of a legal slide whose average is at least every legal slide's and strictly above every earlier legal slide's; it is unset exactly when no legal slide's answer has an average above -1 |
| SearchLaws.MemoHitIgnoresChildren | solver.h:118-121 | when the probe finds an entry the step's result does not depend on the children |
| SearchLaws.SolveReturnsBuiltAnswer | solver.h:186-188 | after a before-state's step, the query for that state with its stored hint value returns exactly the step's answer |
| SearchLaws.HashHintField | solver.h:214-215 | the hint field of a key built from a hint 0..3 is that hint |
| SearchLaws.BuildStepKeepsHints | solver.h:186-188 | a step on a state whose hint indexes the bag keeps every stored key's hint field below 3 |
| SearchLaws.SolveWithoutHint | solver.h:96 | a query with no hint finds nothing in a table whose stored hints are all below 3 |
| SearchLaws.NoHintKeyRange | solver.h:82-96 | a probe key with hint -1 is negative exactly for the all-empty board, and for every other board with cells below 16 it lies inside the 800000000-entry table |

## Left out

- Board and solver text input and output, `answer` printing and `state_type`/`state_hint` parsing: these are I/O on streams.
- Console logging inside the search: it is a side effect only.
- Floating point: answers are exact reals, and the NaN "unset" value is `None` or an absent table key.
- Grid.Score: `pow(3.0, t-2)` in double is modelled as the exact integer 3^(t-2), and the `int` sum is not bounded, so overflow for ranks beyond reach is not modelled.
- Grid.Board: cells are unbounded naturals; the `uint32` cell type never wraps for reachable ranks.
- Key.Hash: the shifts are multiplications on unbounded integers, so 32-bit overflow is not modelled; `Key.HashFitsTable` shows keys stay below 2^29 for cells below 16.
- Search.BuildStep: the children's answers are a function argument, and the table at store time is taken to be the table at probe time. In the source, the recursive calls between probe and store also write to the table.
- The full recursive traversal started by the constructor is not modelled. Its termination is not evident from the code, and it relies on an 800000000-entry heap array; only one node's step is modelled.
- Memory management of the table (`new`/`delete`).
- Memo.CheckExist: the table is a map over all integers, so a key outside [0, 800000000) reads as unset. In the source such a read is outside the array; for cells below 16 and a stored hint value `info` of at most 4 (probe hint -1..3), the only keys that leave the range are the hint -1 keys of the all-empty board (`Key.HashFitsTable`, `SearchLaws.NoHintKeyRange`). Cells of 16 or more, or a larger `info`, can give keys beyond the table, which the source would read outside its array.
- The bag is not part of the key: two states with the same cells, hint and tag but different bags share one entry. The model keeps this, as the code does.

=== FILE: grid.dfy ===
/** The 2x3 board of a "Threes"-like tile-merging puzzle and its transition rules.

    Cells use the one-dimensional index order
        (0) (1) (2)
        (3) (4) (5)
    and hold a rank: 0 is empty; 1, 2 and 3 are the tiles the bag draws and
    `Place` accepts; a rank t >= 3 is worth 3^(t-2) points. A 3 also arises from
    a 1+2 merge, and ranks above 3 arise only from merges.

    The source mutates a board in place and returns an integer reward; here every
    mutator is a pure function returning the board afterwards together with that
    reward, and -1 keeps its meaning of "illegal action, board unchanged".
 */
module Grid {

  datatype Board = Board(t0: nat, t1: nat, t2: nat, t3: nat, t4: nat, t5: nat)

  /** The board after a mutator ran, and the integer the mutator returned. */
  datatype Outcome = Outcome(board: Board, reward: int)

  /** The reward a mutator returns when the action is illegal. */
  const IllegalReward: int := -1

  function Cell(b: Board, i: nat): nat
    requires i < 6
  {
    if i == 0 then b.t0
    else if i == 1 then b.t1
    else if i == 2 then b.t2
    else if i == 3 then b.t3
    else if i == 4 then b.t4
    else b.t5
  }

  /** The board with cell `i` overwritten by `v`. */
  function SetCell(b: Board, i: nat, v: nat): (r: Board)
    requires i < 6
    ensures Cell(r, i) == v
    ensures forall k :: 0 <= k < 6 && k != i ==> Cell(r, k) == Cell(b, k)
  {
    if i == 0 then b.(t0 := v)
    else if i == 1 then b.(t1 := v)
    else if i == 2 then b.(t2 := v)
    else if i == 3 then b.(t3 := v)
    else if i == 4 then b.(t4 := v)
    else b.(t5 := v)
  }

  /** Places a drawn tile: legal only for a position 0..5 and a rank 1, 2 or 3. */
  function Place(b: Board, pos: nat, tile: nat): (r: Outcome)
    ensures r.reward == IllegalReward <==> pos > 5 || tile !in {1, 2, 3}
    ensures r.reward == IllegalReward ==> r.board == b
    ensures r.reward != IllegalReward ==>
              && r.reward == 0
              && Cell(r.board, pos) == tile
              && forall k :: 0 <= k < 6 && k != pos ==> Cell(r.board, k) == Cell(b, k)
  {
    if pos > 5 then Outcome(b, IllegalReward)
    else if tile != 1 && tile != 2 && tile != 3 then Outcome(b, IllegalReward)
    else Outcome(SetCell(b, pos, tile), 0)
  }

  // ---------------------------------------------------------------------------
  // Score

  /** 3^n for n >= 0 (1 for a non-positive exponent). */
  function Pow3(n: int): (r: nat)
    ensures r >= 1
  {
    if n <= 0 then 1 else 3 * Pow3(n - 1)
  }

  /** Points a single cell contributes: 3^(t-2) for a tile of rank t >= 3,
      whether placed (a 3) or merged; nothing for 1, 2 or an empty cell. */
  function CellScore(t: nat): nat
  {
    if t >= 3 then Pow3(t - 2) else 0
  }

  function Score(b: Board): nat
  {
    CellScore(b.t0) + CellScore(b.t1) + CellScore(b.t2)
    + CellScore(b.t3) + CellScore(b.t4) + CellScore(b.t5)
  }

  function Pow2(n: nat): (r: nat)
    ensures r >= 1
  {
    if n == 0 then 1 else 2 * Pow2(n - 1)
  }

  /** The number a tile of rank t shows: 1 and 2 for the two small tiles,
      3 * 2^(t-3) for a tile of rank t >= 3, and 0 for an empty cell.
      A merge adds the faces of the two tiles, so faces are conserved. */
  function Face(t: nat): nat
  {
    if t <= 2 then t else 3 * Pow2(t - 3)
  }

  /** The total face value on the board. */
  function FaceSum(b: Board): nat
  {
    Face(b.t0) + Face(b.t1) + Face(b.t2) + Face(b.t3) + Face(b.t4) + Face(b.t5)
  }

  function Occupied(t: nat): nat
  {
    if t == 0 then 0 else 1
  }

  /** The number of non-empty cells. */
  function TileCount(b: Board): nat
  {
    Occupied(b.t0) + Occupied(b.t1) + Occupied(b.t2)
    + Occupied(b.t3) + Occupied(b.t4) + Occupied(b.t5)
  }

  // ---------------------------------------------------------------------------
  // The merge rule on one adjacent pair

  predicate OneTwo(x: nat, y: nat)
  {
    (x == 1 && y == 2) || (x == 2 && y == 1)
  }

  /** The pair (lead, trail), scanned towards `lead`, changes under the merge rule. */
  predicate Movable(lead: nat, trail: nat)
  {
    (lead == 0 && trail != 0) || OneTwo(lead, trail) || (lead == trail && lead >= 3)
  }

  /** Points a pair gains under the merge rule: 3 for a 1+2 merge, 3^(t-2) when two
      rank-t tiles (t >= 3) become one rank t+1 tile, nothing for a plain shift. */
  function MergeGain(lead: nat, trail: nat): nat
  {
    if lead == 0 then 0
    else if OneTwo(lead, trail) then 3
    else if lead == trail && lead >= 3 then Pow3(lead - 2)
    else 0
  }

  /** One application of the merge rule to the pair (lead, trail): an empty lead
      cell takes the trailing tile, a 1 and a 2 merge into a 3, two equal ranks
      t >= 3 merge into t+1; otherwise nothing changes. */
  function Step(lead: nat, trail: nat): (r: (nat, nat))
    ensures r == (lead, trail) <==> !Movable(lead, trail)
    ensures r != (lead, trail) ==> r.1 == 0 && r.0 != lead
    ensures CellScore(r.0) + CellScore(r.1) == CellScore(lead) + CellScore(trail) + MergeGain(lead, trail)
    ensures Occupied(r.0) + Occupied(r.1) <= Occupied(lead) + Occupied(trail)
    ensures Face(r.0) + Face(r.1) == Face(lead) + Face(trail)
  {
    if lead == 0 then (trail, 0)
    else if OneTwo(lead, trail) then (3, 0)
    else if lead == trail && lead >= 3 then (lead + 1, 0)
    else (lead, trail)
  }

  /** A row slid towards index 0: the pair (a, b) first, then (b', c) with the
      updated middle cell, as the source's column loop does. */
  function SlideRowLeft(a: nat, b: nat, c: nat): (r: (nat, nat, nat))
    ensures r == (a, b, c) <==> !Movable(a, b) && !Movable(b, c)
    ensures r != (a, b, c) ==> r.2 == 0
  {
    var (a1, b1) := Step(a, b);
    var (b2, c2) := Step(b1, c);
    (a1, b2, c2)
  }

  // ---------------------------------------------------------------------------
  // Slides

  predicate CanSlideLeft(b: Board)
  {
    Movable(b.t0, b.t1) || Movable(b.t1, b.t2) || Movable(b.t3, b.t4) || Movable(b.t4, b.t5)
  }

  predicate CanSlideUp(b: Board)
  {
    Movable(b.t0, b.t3) || Movable(b.t1, b.t4) || Movable(b.t2, b.t5)
  }

  predicate CanSlideRight(b: Board)
  {
    Movable(b.t2, b.t1) || Movable(b.t1, b.t0) || Movable(b.t5, b.t4) || Movable(b.t4, b.t3)
  }

  predicate CanSlideDown(b: Board)
  {
    Movable(b.t3, b.t0) || Movable(b.t4, b.t1) || Movable(b.t5, b.t2)
  }

  /** The reward of a slide from `before` to `after`: -1 when nothing moved,
      otherwise the score difference. */
  function SlideReward(before: Board, after: Board): int
  {
    if after == before then IllegalReward else Score(after) - Score(before)
  }

  function SlideLeft(b: Board): (r: Outcome)
    ensures r.reward == IllegalReward <==> !CanSlideLeft(b)
    ensures r.reward == IllegalReward ==> r.board == b
    ensures r.reward != IllegalReward ==>
              r.board != b && r.reward == Score(r.board) - Score(b) && r.reward >= 0
  {
    var (a0, a1, a2) := SlideRowLeft(b.t0, b.t1, b.t2);
    var (a3, a4, a5) := SlideRowLeft(b.t3, b.t4, b.t5);
    var after := Board(a0, a1, a2, a3, a4, a5);
    Outcome(after, SlideReward(b, after))
  }

  function SlideUp(b: Board): (r: Outcome)
    ensures r.reward == IllegalReward <==> !CanSlideUp(b)
    ensures r.reward == IllegalReward ==> r.board == b
    ensures r.reward != IllegalReward ==>
              r.board != b && r.reward == Score(r.board) - Score(b) && r.reward >= 0
  {
    var (a0, a3) := Step(b.t0, b.t3);
    var (a1, a4) := Step(b.t1, b.t4);
    var (a2, a5) := Step(b.t2, b.t5);
    var after := Board(a0, a1, a2, a3, a4, a5);
    Outcome(after, SlideReward(b, after))
  }

  /** Swaps the left and right columns. */
  function ReflectHorizontal(b: Board): Board
  {
    Board(b.t2, b.t1, b.t0, b.t5, b.t4, b.t3)
  }

  /** Swaps the two rows. */
  function ReflectVertical(b: Board): Board
  {
    Board(b.t3, b.t4, b.t5, b.t0, b.t1, b.t2)
  }

  /** A half turn: both reflections, horizontal first. */
  function Reverse(b: Board): Board
  {
    ReflectVertical(ReflectHorizontal(b))
  }

  function SlideRight(b: Board): (r: Outcome)
    ensures r.reward == IllegalReward <==> !CanSlideRight(b)
    ensures r.reward == IllegalReward ==> r.board == b
    ensures r.reward != IllegalReward ==>
              r.board != b && r.reward == Score(r.board) - Score(b) && r.reward >= 0
  {
    var o := SlideLeft(ReflectHorizontal(b));
    Outcome(ReflectHorizontal(o.board), o.reward)
  }

  function SlideDown(b: Board): (r: Outcome)
    ensures r.reward == IllegalReward <==> !CanSlideDown(b)
    ensures r.reward == IllegalReward ==> r.board == b
    ensures r.reward != IllegalReward ==>
              r.board != b && r.reward == Score(r.board) - Score(b) && r.reward >= 0
  {
    var o := SlideUp(ReflectVertical(b));
    Outcome(ReflectVertical(o.board), o.reward)
  }

  /** Dispatches on the two low bits of the opcode: 0 up, 1 right, 2 down, 3 left. */
  function Slide(b: Board, opcode: nat): (r: Outcome)
    ensures r.reward == IllegalReward <==> r.board == b
    ensures r.reward != IllegalReward ==> r.reward == Score(r.board) - Score(b) && r.reward >= 0
  {
    var op := opcode % 4;
    if op == 0 then SlideUp(b)
    else if op == 1 then SlideRight(b)
    else if op == 2 then SlideDown(b)
    else SlideLeft(b)
  }
}

=== FILE: grid_laws.dfy ===
/** Algebraic laws of the 2x3 board: the reflections, how the derived slides
    relate to the primitive ones, what a slide's reward is made of, and that no
    slide creates tiles. */
module GridLaws {
  import opened Grid

  // ---------------------------------------------------------------------------
  // Reflections

  lemma ReflectHorizontalInvolution(b: Board)
    ensures ReflectHorizontal(ReflectHorizontal(b)) == b
  {
  }

  lemma ReflectVerticalInvolution(b: Board)
    ensures ReflectVertical(ReflectVertical(b)) == b
  {
  }

  lemma ReflectionsCommute(b: Board)
    ensures ReflectHorizontal(ReflectVertical(b)) == ReflectVertical(ReflectHorizontal(b))
  {
  }

  lemma ReverseInvolution(b: Board)
    ensures Reverse(Reverse(b)) == b
  {
    ReflectionsCommute(ReflectHorizontal(b));
    ReflectHorizontalInvolution(b);
  }

  /** Score and tile count only depend on the multiset of cells. */
  lemma ReflectionsKeepScore(b: Board)
    ensures Score(ReflectHorizontal(b)) == Score(b)
    ensures Score(ReflectVertical(b)) == Score(b)
    ensures TileCount(ReflectHorizontal(b)) == TileCount(b)
    ensures TileCount(ReflectVertical(b)) == TileCount(b)
  {
  }

  // ---------------------------------------------------------------------------
  // Derived slides

  /** A row slid towards index 2, written directly: the pair (c, b) first, then
      (b', a). */
  function SlideRowRight(a: nat, b: nat, c: nat): (nat, nat, nat)
  {
    var (c1, b1) := Step(c, b);
    var (b2, a2) := Step(b1, a);
    (a2, b2, c1)
  }

  /** Sliding right through two horizontal reflections is the same as merging
      every row towards its right end, with the same reward signal. */
  lemma SlideRightByRows(b: Board)
    ensures var (a0, a1, a2) := SlideRowRight(b.t0, b.t1, b.t2);
            var (a3, a4, a5) := SlideRowRight(b.t3, b.t4, b.t5);
            var after := Board(a0, a1, a2, a3, a4, a5);
            SlideRight(b) == Outcome(after, SlideReward(b, after))
  {
    ReflectionsKeepScore(SlideLeft(ReflectHorizontal(b)).board);
  }

  /** Sliding down through two vertical reflections is the same as merging every
      column towards the bottom row, with the same reward signal. */
  lemma SlideDownByColumns(b: Board)
    ensures var (a3, a0) := Step(b.t3, b.t0);
            var (a4, a1) := Step(b.t4, b.t1);
            var (a5, a2) := Step(b.t5, b.t2);
            var after := Board(a0, a1, a2, a3, a4, a5);
            SlideDown(b) == Outcome(after, SlideReward(b, after))
  {
    ReflectionsKeepScore(SlideUp(ReflectVertical(b)).board);
  }

  /** Both rows are processed by the same rule, so swapping them commutes with a
      left slide, and the reward is the same. */
  lemma SlideLeftCommutesVertical(b: Board)
    ensures SlideLeft(ReflectVertical(b))
            == Outcome(ReflectVertical(SlideLeft(b).board), SlideLeft(b).reward)
  {
    ReflectionsKeepScore(SlideLeft(b).board);
    ReflectionsKeepScore(b);
  }

  /** Each column is processed on its own, so mirroring the columns commutes with
      an up slide, and the reward is the same. */
  lemma SlideUpCommutesHorizontal(b: Board)
    ensures SlideUp(ReflectHorizontal(b))
            == Outcome(ReflectHorizontal(SlideUp(b).board), SlideUp(b).reward)
  {
    ReflectionsKeepScore(SlideUp(b).board);
    ReflectionsKeepScore(b);
  }

  // ---------------------------------------------------------------------------
  // Rewards and tile count

  /** A legal left slide earns exactly what its merges earn: 3 per 1+2 merge,
      3^(t-2) per merge of two rank-t tiles, nothing for shifts. */
  lemma SlideLeftRewardIsMergeGain(b: Board)
    requires CanSlideLeft(b)
    ensures SlideLeft(b).reward
            == MergeGain(b.t0, b.t1) + MergeGain(Step(b.t0, b.t1).1, b.t2)
             + MergeGain(b.t3, b.t4) + MergeGain(Step(b.t3, b.t4).1, b.t5)
  {
  }

  /** A legal up slide earns exactly what its three column merges earn. */
  lemma SlideUpRewardIsMergeGain(b: Board)
    requires CanSlideUp(b)
    ensures SlideUp(b).reward
            == MergeGain(b.t0, b.t3) + MergeGain(b.t1, b.t4) + MergeGain(b.t2, b.t5)
  {
  }

  lemma SlideLeftKeepsOrDropsTiles(b: Board)
    ensures TileCount(SlideLeft(b).board) <= TileCount(b)
  {
    var (x1, y1) := Step(b.t0, b.t1);
    var (x4, y4) := Step(b.t3, b.t4);
    assert Occupied(x1) + Occupied(y1) <= Occupied(b.t0) + Occupied(b.t1);
    assert Occupied(x4) + Occupied(y4) <= Occupied(b.t3) + Occupied(b.t4);
    var (y1', z1) := Step(y1, b.t2);
    var (y4', z4) := Step(y4, b.t5);
    assert Occupied(y1') + Occupied(z1) <= Occupied(y1) + Occupied(b.t2);
    assert Occupied(y4') + Occupied(z4) <= Occupied(y4) + Occupied(b.t5);
  }

  lemma SlideUpKeepsOrDropsTiles(b: Board)
    ensures TileCount(SlideUp(b).board) <= TileCount(b)
  {
  }

  /** A left slide moves tiles unchanged or merges two into one whose face is
      their sum, so the board's total face value stays the same. */
  lemma SlideLeftKeepsFace(b: Board)
    ensures FaceSum(SlideLeft(b).board) == FaceSum(b)
  {
    var (x1, y1) := Step(b.t0, b.t1);
    var (x4, y4) := Step(b.t3, b.t4);
    var (y1', z1) := Step(y1, b.t2);
    var (y4', z4) := Step(y4, b.t5);
    assert Face(x1) + Face(y1') + Face(z1) == Face(b.t0) + Face(b.t1) + Face(b.t2);
    assert Face(x4) + Face(y4') + Face(z4) == Face(b.t3) + Face(b.t4) + Face(b.t5);
  }

  lemma SlideUpKeepsFace(b: Board)
    ensures FaceSum(SlideUp(b).board) == FaceSum(b)
  {
    var (a0, a3) := Step(b.t0, b.t3);
    var (a1, a4) := Step(b.t1, b.t4);
    var (a2, a5) := Step(b.t2, b.t5);
    assert Face(a0) + Face(a3) == Face(b.t0) + Face(b.t3);
    assert Face(a1) + Face(a4) == Face(b.t1) + Face(b.t4);
    assert Face(a2) + Face(a5) == Face(b.t2) + Face(b.t5);
  }

  /** No slide, legal or not, creates or destroys face value. */
  lemma SlideKeepsFace(b: Board, opcode: nat)
    ensures FaceSum(Slide(b, opcode).board) == FaceSum(b)
  {
    var op := opcode % 4;
    if op == 0 {
      SlideUpKeepsFace(b);
    } else if op == 1 {
      var h := ReflectHorizontal(b);
      SlideLeftKeepsFace(h);
      assert FaceSum(ReflectHorizontal(SlideLeft(h).board)) == FaceSum(SlideLeft(h).board);
    } else if op == 2 {
      var v := ReflectVertical(b);
      SlideUpKeepsFace(v);
      assert FaceSum(ReflectVertical(SlideUp(v).board)) == FaceSum(SlideUp(v).board);
    } else {
      SlideLeftKeepsFace(b);
    }
  }

  /** Every branch of the merge rule either shifts one tile or turns two into
      one, so no slide increases the number of tiles. */
  lemma SlideNeverAddsTiles(b: Board, opcode: nat)
    ensures TileCount(Slide(b, opcode).board) <= TileCount(b)
  {
    var op := opcode % 4;
    if op == 0 {
      SlideUpKeepsOrDropsTiles(b);
    } else if op == 1 {
      var h := ReflectHorizontal(b);
      SlideLeftKeepsOrDropsTiles(h);
      ReflectionsKeepScore(b);
      ReflectionsKeepScore(SlideLeft(h).board);
    } else if op == 2 {
      var v := ReflectVertical(b);
      SlideUpKeepsOrDropsTiles(v);
      ReflectionsKeepScore(b);
      ReflectionsKeepScore(SlideUp(v).board);
    } else {
      SlideLeftKeepsOrDropsTiles(b);
    }
  }

  /** Only the two low bits of the opcode are read. */
  lemma SlideOpcodeModulo(b: Board, opcode: nat, k: nat)
    ensures Slide(b, opcode + 4 * k) == Slide(b, opcode)
  {
    assert (opcode + 4 * k) % 4 == opcode % 4;
  }

  /** A slide that returned -1 left the board as it was, so repeating it fails
      the same way. */
  lemma IllegalSlideRepeats(b: Board, opcode: nat)
    requires Slide(b, opcode).reward == IllegalReward
    ensures Slide(Slide(b, opcode).board, opcode) == Slide(b, opcode)
  {
  }
}

=== FILE: key.dfy ===
/** The solver's packed state key: six 4-bit cell fields, then a 2-bit hint field,
    then a 3-bit field naming the transition that produced the state. The key
    directly addresses the transposition table. */
module Key {
  import Grid

  /** The solver's action enum, in its declared order. `Place` tags a before-state,
      one waiting for the player's slide. */
  datatype Action = Up | Right | Down | Left | Place

  function Code(a: Action): nat
  {
    match a
    case Up => 0
    case Right => 1
    case Down => 2
    case Left => 3
    case Place => 4
  }

  /** The slide action with opcode `way`, as the solver's `(action)way` cast. */
  function ActionOf(way: nat): (a: Action)
    requires way < 4
    ensures Code(a) == way && a != Place
  {
    if way == 0 then Up else if way == 1 then Right else if way == 2 then Down else Left
  }

  /** Entries of the flat table the solver allocates. */
  const TableSize: int := 800000000

  /** Keys of states whose cells are below 16 and whose hint is below 4 stay below 2^29. */
  const KeySpace: int := 0x2000_0000

  function Cells(b: Grid.Board): seq<int>
  {
    [b.t0, b.t1, b.t2, b.t3, b.t4, b.t5]
  }

  /** The cell loop of the hash: each step shifts the key four bits left and adds
      the next cell. */
  function Pack(s: seq<int>): int
  {
    if |s| == 0 then 0 else Pack(s[..|s| - 1]) * 16 + s[|s| - 1]
  }

  /** The packed key of a state. Whatever the inputs, its low three bits are the tag. */
  function Hash(b: Grid.Board, hint: int, act: Action): (key: int)
    ensures key % 8 == Code(act)
  {
    (Pack(Cells(b)) * 4 + hint) * 8 + Code(act)
  }

  // ---------------------------------------------------------------------------
  // Decoding

  /** The fields read back from a key. */
  datatype Fields = Fields(cells: seq<int>, hint: int, code: int)

  /** The last `n` 4-bit fields of `key`, most significant first. */
  function Unpack(key: int, n: nat): (s: seq<int>)
    ensures |s| == n
    decreases n
  {
    if n == 0 then [] else Unpack(key / 16, n - 1) + [key % 16]
  }

  function Decode(key: int): Fields
  {
    Fields(Unpack(key / 32, 6), (key / 8) % 4, key % 8)
  }

  predicate Nibbles(s: seq<int>)
  {
    forall i :: 0 <= i < |s| ==> 0 <= s[i] < 16
  }

  /** The bounds under which the fields of a key do not overlap. */
  predicate InRange(b: Grid.Board, hint: int)
  {
    Nibbles(Cells(b)) && 0 <= hint < 4
  }

  function Pow16(n: nat): (r: nat)
    ensures r >= 1
  {
    if n == 0 then 1 else 16 * Pow16(n - 1)
  }

  lemma {:induction false} PackBound(s: seq<int>)
    requires Nibbles(s)
    ensures 0 <= Pack(s) < Pow16(|s|)
  {
    if |s| > 0 {
      var init := s[..|s| - 1];
      assert Nibbles(init);
      PackBound(init);
    }
  }

  lemma {:induction false} UnpackPack(s: seq<int>)
    requires Nibbles(s)
    ensures Unpack(Pack(s), |s|) == s
  {
    if |s| > 0 {
      var init := s[..|s| - 1];
      assert Nibbles(init);
      UnpackPack(init);
      var p := Pack(init);
      assert (p * 16 + s[|s| - 1]) / 16 == p;
      assert (p * 16 + s[|s| - 1]) % 16 == s[|s| - 1];
      assert s == init + [s[|s| - 1]];
    }
  }

  /** Decoding a key recovers the state it was built from: the low three bits give
      the tag, the next two the hint, then successive 4-bit fields give the cells
      from index 5 back to index 0. */
  lemma DecodeHash(b: Grid.Board, hint: int, act: Action)
    requires InRange(b, hint)
    ensures Decode(Hash(b, hint, act)) == Fields(Cells(b), hint, Code(act))
  {
    var p := Pack(Cells(b));
    var q := p * 4 + hint;
    var key := Hash(b, hint, act);
    assert key == q * 8 + Code(act);
    assert key / 8 == q;
    assert q % 4 == hint;
    assert q / 4 == p;
    assert key / 32 == q / 4;
    UnpackPack(Cells(b));
  }

  /** Within the bounds, different states get different keys. */
  lemma HashInjective(b1: Grid.Board, h1: int, a1: Action, b2: Grid.Board, h2: int, a2: Action)
    requires InRange(b1, h1) && InRange(b2, h2)
    requires Hash(b1, h1, a1) == Hash(b2, h2, a2)
    ensures b1 == b2 && h1 == h2 && a1 == a2
  {
    DecodeHash(b1, h1, a1);
    DecodeHash(b2, h2, a2);
    assert Cells(b1) == Cells(b2);
    assert b1.t0 == Cells(b1)[0] == Cells(b2)[0] == b2.t0;
  }

  /** Within the bounds every key is a valid index of the solver's table. */
  lemma HashFitsTable(b: Grid.Board, hint: int, act: Action)
    requires InRange(b, hint)
    ensures 0 <= Hash(b, hint, act) < KeySpace <= TableSize
  {
    PackBound(Cells(b));
    assert Pow16(6) == 0x100_0000;
  }
}

=== FILE: memo.dfy ===
/** The transposition table, the four-way symmetry probe and the lookup-only
    query. The table's "unset" entries (a NaN average in the source) are keys
    absent from the map. */
module Memo {
  import opened Grid
  import opened Key

  datatype Option<T> = None | Some(value: T)

  /** Final-score statistics of a state. */
  datatype Answer = Answer(min: real, avg: real, max: real)

  type Table = map<int, Answer>

  /** The probe's "nothing found" result. */
  const NotFound: int := -1

  /** The keys the probe tries, in order: the cells as given, rows swapped,
      columns mirrored, both. Hint and tag are kept as given. */
  function ProbeKeys(b: Board, hint: int, act: Action): (keys: seq<int>)
    ensures |keys| == 4
  {
    [Hash(b, hint, act), Hash(ReflectVertical(b), hint, act),
     Hash(ReflectHorizontal(b), hint, act), Hash(Reverse(b), hint, act)]
  }

  /** Some probed key of the state is set. */
  predicate Known(table: Table, b: Board, hint: int, act: Action)
  {
    exists i :: 0 <= i < 4 && ProbeKeys(b, hint, act)[i] in table
  }

  /** The symmetry probe: the first probed key whose entry is set, or -1. */
  function CheckExist(table: Table, b: Board, hint: int, act: Action): (r: int)
    ensures r == NotFound <==> !Known(table, b, hint, act)
    ensures r != NotFound ==>
              exists i :: 0 <= i < 4 && r == ProbeKeys(b, hint, act)[i] && r in table
                          && forall j :: 0 <= j < i ==> ProbeKeys(b, hint, act)[j] !in table
  {
    var keys := ProbeKeys(b, hint, act);
    // a key's low three bits are its tag, at most 4, so no key is -1
    assert forall i :: 0 <= i < 4 ==> keys[i] % 8 == Code(act);
    if keys[0] in table then keys[0]
    else if keys[1] in table then keys[1]
    else if keys[2] in table then keys[2]
    else if keys[3] in table then keys[3]
    else NotFound
  }

  /** The entry a probe result designates. */
  function Lookup(table: Table, index: int): Option<Answer>
    requires index == NotFound || index in table
  {
    if index == NotFound then None else Some(table[index])
  }

  /** How the query's caller declared the state. */
  datatype StateType = Before | After | Illegal

  /** The after-state branch of the query: tries the tags of the four slides in
      order from `way` and stops at the first probe that finds an entry. */
  function ProbeSlides(table: Table, b: Board, hint: int, way: nat): (r: int)
    requires way < 4
    ensures r == NotFound || r in table
    ensures r == NotFound <==> forall w :: way <= w < 4 ==> !Known(table, b, hint, ActionOf(w))
    ensures r != NotFound ==>
              exists w :: way <= w < 4 && Known(table, b, hint, ActionOf(w))
                          && (forall v :: way <= v < w ==> !Known(table, b, hint, ActionOf(v)))
                          && r == CheckExist(table, b, hint, ActionOf(w))
    decreases 4 - way
  {
    var index := CheckExist(table, b, hint, ActionOf(way));
    if index != NotFound || way == 3 then index else ProbeSlides(table, b, hint, way + 1)
  }

  /** The lookup-only query. `info` is the board's stored hint value; the probe is
      given `info - 1`. A before-state is probed with the `Place` tag; any other
      declared type is probed as an after-state. */
  function Solve(table: Table, b: Board, info: nat, st: StateType): (r: Option<Answer>)
    ensures st.Before? ==> (r.Some? <==> Known(table, b, info - 1, Place))
    ensures st.Before? && r.Some? ==> r == Some(table[CheckExist(table, b, info - 1, Place)])
    ensures !st.Before? ==> (r.Some? <==> exists w :: 0 <= w < 4 && Known(table, b, info - 1, ActionOf(w)))
    ensures !st.Before? && r.Some? ==>
              exists w :: 0 <= w < 4 && Known(table, b, info - 1, ActionOf(w))
                          && (forall v :: 0 <= v < w ==> !Known(table, b, info - 1, ActionOf(v)))
                          && r == Some(table[CheckExist(table, b, info - 1, ActionOf(w))])
  {
    var hint := info - 1;
    if st.Before? then Lookup(table, CheckExist(table, b, hint, Place))
    else Lookup(table, ProbeSlides(table, b, hint, 0))
  }

  // ---------------------------------------------------------------------------
  // Laws of the probe

  /** The probe keeps the tag: every probed key carries the query's own tag,
      even though a reflection of the board swaps left with right or up with down.
      A corollary of `Hash`'s contract, recorded because the reflected keys keep
      the unreflected tag. */
  lemma ProbeKeepsTag(b: Board, hint: int, act: Action)
    ensures forall i :: 0 <= i < 4 ==> ProbeKeys(b, hint, act)[i] % 8 == Code(act)
  {
  }

  /** The four probed arrangements are closed under either reflection. */
  lemma ProbeKeysClosed(b: Board, hint: int, act: Action)
    ensures forall i :: 0 <= i < 4 ==>
              ProbeKeys(ReflectHorizontal(b), hint, act)[i] in ProbeKeys(b, hint, act)
    ensures forall i :: 0 <= i < 4 ==>
              ProbeKeys(ReflectVertical(b), hint, act)[i] in ProbeKeys(b, hint, act)
  {
    var h := ReflectHorizontal(b);
    var v := ReflectVertical(b);
    assert ReflectVertical(h) == Reverse(b);
    assert ReflectHorizontal(h) == b;
    assert Reverse(h) == v;
    assert ReflectVertical(v) == b;
    assert ReflectHorizontal(v) == Reverse(b);
    assert Reverse(v) == ReflectHorizontal(b);
  }

  lemma KnownUnderHorizontal(table: Table, b: Board, hint: int, act: Action)
    ensures Known(table, ReflectHorizontal(b), hint, act) <==> Known(table, b, hint, act)
  {
    var h := ReflectHorizontal(b);
    ProbeKeysClosed(b, hint, act);
    ProbeKeysClosed(h, hint, act);
    assert ReflectHorizontal(h) == b;
  }

  lemma KnownUnderVertical(table: Table, b: Board, hint: int, act: Action)
    ensures Known(table, ReflectVertical(b), hint, act) <==> Known(table, b, hint, act)
  {
    var v := ReflectVertical(b);
    ProbeKeysClosed(b, hint, act);
    ProbeKeysClosed(v, hint, act);
    assert ReflectVertical(v) == b;
  }

  /** The probe on a board and on any of its reflections, with the same hint and
      tag, agree on whether an entry is found. */
  lemma CheckExistUnderReflections(table: Table, b: Board, hint: int, act: Action)
    ensures (CheckExist(table, ReflectHorizontal(b), hint, act) == NotFound)
            == (CheckExist(table, b, hint, act) == NotFound)
    ensures (CheckExist(table, ReflectVertical(b), hint, act) == NotFound)
            == (CheckExist(table, b, hint, act) == NotFound)
    ensures (CheckExist(table, Reverse(b), hint, act) == NotFound)
            == (CheckExist(table, b, hint, act) == NotFound)
  {
    KnownUnderHorizontal(table, b, hint, act);
    KnownUnderVertical(table, b, hint, act);
    KnownUnderVertical(table, ReflectHorizontal(b), hint, act);
  }

  /** The query on a board and on any of its reflections agree on whether an
      answer is found. The answers themselves need not agree: the probe may stop
      at a different member of the symmetry class. */
  lemma SolveFoundUnderReflections(table: Table, b: Board, info: nat, st: StateType)
    ensures Solve(table, ReflectHorizontal(b), info, st).Some? == Solve(table, b, info, st).Some?
    ensures Solve(table, ReflectVertical(b), info, st).Some? == Solve(table, b, info, st).Some?
    ensures Solve(table, Reverse(b), info, st).Some? == Solve(table, b, info, st).Some?
  {
    var hint := info - 1;
    forall a: Action
      ensures Known(table, ReflectHorizontal(b), hint, a) == Known(table, b, hint, a)
      ensures Known(table, ReflectVertical(b), hint, a) == Known(table, b, hint, a)
      ensures Known(table, Reverse(b), hint, a) == Known(table, b, hint, a)
    {
      KnownUnderHorizontal(table, b, hint, a);
      KnownUnderVertical(table, b, hint, a);
      KnownUnderVertical(table, ReflectHorizontal(b), hint, a);
    }
  }
}

=== FILE: search.dfy ===
/** One node of the solver's backward induction. A before-state tries the four
    slides and keeps the best child; an after-state places the hinted tile into
    every empty cell of the edge the slide vacated, draws every rank the bag
    still holds, and aggregates the children. The children's answers are given
    as a function: the recursion that produces them is not part of this model. */
module Search {
  import opened Grid
  import opened Key
  import opened Memo

  // ---------------------------------------------------------------------------
  // The bag

  /** Undrawn ranks, one slot per rank index 0..2 (tiles 1..3); a slot is drawable
      when it is nonzero. */
  datatype Bag = Bag(s0: int, s1: int, s2: int)

  const FullBag: Bag := Bag(1, 1, 1)

  function Slot(bag: Bag, j: nat): int
    requires j < 3
  {
    if j == 0 then bag.s0 else if j == 1 then bag.s1 else bag.s2
  }

  /** Marks the hinted rank as drawn and restarts the cycle once all three are
      drawn. */
  function BagUpdate(bag: Bag, hint: int): (r: Bag)
    requires 0 <= hint < 3
    ensures exists j :: 0 <= j < 3 && Slot(r, j) != 0
    ensures (forall j :: 0 <= j < 3 && j != hint ==> Slot(bag, j) == 0) ==> r == FullBag
    ensures (exists j :: 0 <= j < 3 && j != hint && Slot(bag, j) != 0) ==>
              Slot(r, hint) == 0 && forall j :: 0 <= j < 3 && j != hint ==> Slot(r, j) == Slot(bag, j)
  {
    var cleared := if hint == 0 then bag.(s0 := 0) else if hint == 1 then bag.(s1 := 0) else bag.(s2 := 0);
    assert forall j :: 0 <= j < 3 ==> Slot(cleared, j) == (if j == hint then 0 else Slot(bag, j));
    assert Slot(FullBag, 0) != 0;
    if cleared.s0 == 0 && cleared.s1 == 0 && cleared.s2 == 0 then FullBag
    else
      assert Slot(cleared, 0) != 0 || Slot(cleared, 1) != 0 || Slot(cleared, 2) != 0;
      cleared
  }

  /** The drawable rank indices, in increasing order. */
  function Draws(bag: Bag): (r: seq<nat>)
    ensures forall j: nat :: j in r <==> j < 3 && Slot(bag, j) != 0
    ensures forall k, l :: 0 <= k < l < |r| ==> r[k] < r[l]
  {
    (if bag.s0 != 0 then [0] else []) + (if bag.s1 != 0 then [1] else []) + (if bag.s2 != 0 then [2] else [])
  }

  // ---------------------------------------------------------------------------
  // Cells that can receive the new tile

  /** The positions start, start+plus, ... up to end. */
  function Range(start: nat, end: nat, plus: nat): seq<nat>
    requires plus > 0
    decreases if start > end then 0 else end - start + 1
  {
    if start > end then [] else [start] + Range(start + plus, end, plus)
  }

  /** The edge the slide vacated: the bottom row after up, the top row after
      down, the left column after right, and the right column otherwise. */
  function EligibleCells(act: Action): (r: seq<nat>)
    ensures forall k :: 0 <= k < |r| ==> r[k] < 6
  {
    match act
    case Up => Range(3, 5, 1)
    case Down => Range(0, 2, 1)
    case Right => Range(0, 3, 3)
    case _ => Range(2, 5, 3)
  }

  /** How many of the listed cells are empty. */
  function EmptyCount(b: Board, cells: seq<nat>): (r: nat)
    requires forall k :: 0 <= k < |cells| ==> cells[k] < 6
    ensures r > 0 <==> exists k :: 0 <= k < |cells| && Cell(b, cells[k]) == 0
    decreases |cells|
  {
    if |cells| == 0 then 0
    else (if Cell(b, cells[0]) == 0 then 1 else 0) + EmptyCount(b, cells[1..])
  }

  // ---------------------------------------------------------------------------
  // States and their children

  /** The arguments of one solver step: cells, bag, hint rank index, and the
      action that produced the state (`Place` for a before-state). */
  datatype Node = Node(cells: Board, bag: Bag, hint: int, act: Action)

  /** An after-state's hint indexes the bag. */
  predicate WellFormed(n: Node)
  {
    n.act != Key.Place ==> 0 <= n.hint < 3
  }

  /** The four slides of a board, by opcode: up, right, down, left. The solver
      applies each to a fresh copy of the board. */
  function Slides(b: Board): (r: seq<Outcome>)
    ensures |r| == 4
  {
    [Slide(b, 0), Slide(b, 1), Slide(b, 2), Slide(b, 3)]
  }

  predicate Legal(outs: seq<Outcome>, way: nat)
    requires way < |outs|
  {
    outs[way].reward != IllegalReward
  }

  /** The after-state reached from before-state `n` by slide `way`. */
  function SlideChild(n: Node, outs: seq<Outcome>, way: nat): Node
    requires way < |outs| == 4
  {
    Node(outs[way].board, n.bag, n.hint, ActionOf(way))
  }

  /** The children of a before-state for the legal slides among the first `m`
      opcodes, in opcode order. */
  function SlideChildren(n: Node, outs: seq<Outcome>, m: nat): (r: seq<Node>)
    requires m <= |outs| == 4
    ensures forall k :: 0 <= k < |r| ==>
              Code(r[k].act) < m && Legal(outs, Code(r[k].act))
              && r[k] == SlideChild(n, outs, Code(r[k].act))
    ensures forall k, l :: 0 <= k < l < |r| ==> Code(r[k].act) < Code(r[l].act)
    decreases m
  {
    if m == 0 then []
    else
      var prev := SlideChildren(n, outs, m - 1);
      var last := if Legal(outs, m - 1) then [SlideChild(n, outs, m - 1)] else [];
      assert forall k :: 0 <= k < |prev| ==> (prev + last)[k] == prev[k];
      assert |last| == 1 ==> (prev + last)[|prev|] == SlideChild(n, outs, m - 1);
      prev + last
  }

  function BeforeChildren(n: Node): seq<Node>
  {
    var outs := Slides(n.cells);
    SlideChildren(n, outs, |outs|)
  }

  /** The branches of one eligible cell: the tile placed there, then one
      before-state per drawable rank. */
  function DrawBranches(b: Board, bag: Bag, draws: seq<nat>): seq<Node>
  {
    seq(|draws|, k requires 0 <= k < |draws| => Node(b, bag, draws[k], Key.Place))
  }

  /** The branches of every empty cell among `cells`, in order. The cell is
      written in a copy, so each branch starts from the same board. */
  function PlaceEach(b: Board, cells: seq<nat>, tile: nat, bag: Bag, draws: seq<nat>): seq<Node>
    requires forall k :: 0 <= k < |cells| ==> cells[k] < 6
    decreases |cells|
  {
    if |cells| == 0 then []
    else
      (if Cell(b, cells[0]) == 0 then DrawBranches(SetCell(b, cells[0], tile), bag, draws) else [])
      + PlaceEach(b, cells[1..], tile, bag, draws)
  }

  lemma MulSucc(e: nat, d: nat)
    ensures (1 + e) * d == d + e * d
  {
  }

  /** One branch per (empty cell, drawable rank) pair. */
  lemma {:induction false} PlaceEachSize(b: Board, cells: seq<nat>, tile: nat, bag: Bag, draws: seq<nat>)
    requires forall k :: 0 <= k < |cells| ==> cells[k] < 6
    ensures |PlaceEach(b, cells, tile, bag, draws)| == EmptyCount(b, cells) * |draws|
    decreases |cells|
  {
    if |cells| > 0 {
      PlaceEachSize(b, cells[1..], tile, bag, draws);
      var e := EmptyCount(b, cells[1..]);
      var d := |draws|;
      var here := if Cell(b, cells[0]) == 0 then DrawBranches(SetCell(b, cells[0], tile), bag, draws) else [];
      assert PlaceEach(b, cells, tile, bag, draws) == here + PlaceEach(b, cells[1..], tile, bag, draws);
      if Cell(b, cells[0]) == 0 {
        assert |here| == d && EmptyCount(b, cells) == 1 + e;
        MulSucc(e, d);
      } else {
        assert |here| == 0 && EmptyCount(b, cells) == e;
      }
    }
  }

  /** `node` is a before-state with `tile` in one of the empty listed cells of
      `b`, the bag `bag`, and a hint among `draws`. */
  predicate PlacedFrom(node: Node, b: Board, cells: seq<nat>, tile: nat, bag: Bag, draws: seq<nat>)
    requires forall k :: 0 <= k < |cells| ==> cells[k] < 6
  {
    && node.act == Key.Place && node.bag == bag && node.hint in draws
    && exists i :: 0 <= i < |cells| && Cell(b, cells[i]) == 0 && node.cells == SetCell(b, cells[i], tile)
  }

  /** Every branch puts `tile` into an empty listed cell and draws a listed rank. */
  lemma {:induction false} PlaceEachSound(b: Board, cells: seq<nat>, tile: nat, bag: Bag, draws: seq<nat>)
    requires forall k :: 0 <= k < |cells| ==> cells[k] < 6
    ensures forall k :: 0 <= k < |PlaceEach(b, cells, tile, bag, draws)| ==>
              PlacedFrom(PlaceEach(b, cells, tile, bag, draws)[k], b, cells, tile, bag, draws)
    decreases |cells|
  {
    if |cells| > 0 {
      PlaceEachSound(b, cells[1..], tile, bag, draws);
      var here := if Cell(b, cells[0]) == 0 then DrawBranches(SetCell(b, cells[0], tile), bag, draws) else [];
      var rest := PlaceEach(b, cells[1..], tile, bag, draws);
      var r := PlaceEach(b, cells, tile, bag, draws);
      assert r == here + rest;
      forall k | 0 <= k < |r|
        ensures PlacedFrom(r[k], b, cells, tile, bag, draws)
      {
        if k < |here| {
          assert r[k] == here[k];
          assert Cell(b, cells[0]) == 0 && r[k].cells == SetCell(b, cells[0], tile);
        } else {
          var m := k - |here|;
          assert r[k] == rest[m];
          assert PlacedFrom(rest[m], b, cells[1..], tile, bag, draws);
          var i :| 0 <= i < |cells[1..]| && Cell(b, cells[1..][i]) == 0
                   && rest[m].cells == SetCell(b, cells[1..][i], tile);
          assert cells[1..][i] == cells[i + 1];
        }
      }
    }
  }

  /** Every (empty cell, drawable rank) pair has its branch. */
  lemma {:induction false} PlaceEachComplete(b: Board, cells: seq<nat>, tile: nat, bag: Bag, draws: seq<nat>)
    requires forall k :: 0 <= k < |cells| ==> cells[k] < 6
    ensures forall i, j :: 0 <= i < |cells| && Cell(b, cells[i]) == 0 && j in draws ==>
              Node(SetCell(b, cells[i], tile), bag, j, Key.Place) in PlaceEach(b, cells, tile, bag, draws)
    decreases |cells|
  {
    if |cells| > 0 {
      PlaceEachComplete(b, cells[1..], tile, bag, draws);
      var here := if Cell(b, cells[0]) == 0 then DrawBranches(SetCell(b, cells[0], tile), bag, draws) else [];
      var rest := PlaceEach(b, cells[1..], tile, bag, draws);
      var r := PlaceEach(b, cells, tile, bag, draws);
      assert r == here + rest;
      forall i, j | 0 <= i < |cells| && Cell(b, cells[i]) == 0 && j in draws
        ensures Node(SetCell(b, cells[i], tile), bag, j, Key.Place) in r
      {
        if i == 0 {
          var k :| 0 <= k < |draws| && draws[k] == j;
          assert here[k] == Node(SetCell(b, cells[0], tile), bag, j, Key.Place);
        } else {
          assert cells[1..][i - 1] == cells[i];
          assert Node(SetCell(b, cells[i], tile), bag, j, Key.Place) in rest;
        }
      }
    }
  }

  /** The before-states an after-state branches into: the tile `hint + 1` in each
      empty eligible cell, times each rank the updated bag can draw next. */
  function AfterChildren(n: Node): (r: seq<Node>)
    requires 0 <= n.hint < 3
    ensures var bag := BagUpdate(n.bag, n.hint);
            var cells := EligibleCells(n.act);
            && |r| == EmptyCount(n.cells, cells) * |Draws(bag)|
            && (forall k :: 0 <= k < |r| ==> PlacedFrom(r[k], n.cells, cells, n.hint + 1, bag, Draws(bag)))
            && (forall i, j :: 0 <= i < |cells| && Cell(n.cells, cells[i]) == 0 && j in Draws(bag) ==>
                  Node(SetCell(n.cells, cells[i], n.hint + 1), bag, j, Key.Place) in r)
  {
    var bag := BagUpdate(n.bag, n.hint);
    var cells := EligibleCells(n.act);
    PlaceEachSize(n.cells, cells, n.hint + 1, bag, Draws(bag));
    PlaceEachSound(n.cells, cells, n.hint + 1, bag, Draws(bag));
    PlaceEachComplete(n.cells, cells, n.hint + 1, bag, Draws(bag));
    PlaceEach(n.cells, EligibleCells(n.act), n.hint + 1, bag, Draws(bag))
  }

  // ---------------------------------------------------------------------------
  // Combining the children's answers

  /** The running state of the before-state loop: the answer kept so far and the
      average it must beat (-1 before any answer is kept). */
  datatype Choice = Choice(best: Option<Answer>, max: real)

  /** Scans the answers in order and keeps one whose average is strictly greater
      than every earlier one's, so the first of equal averages wins. An unset
      answer (None) never wins. */
  function ChooseBest(s: seq<Option<Answer>>): (r: Choice)
    ensures r.best.None? ==> r.max == -1.0
    ensures r.best.Some? ==> r.max == r.best.value.avg && r.max > -1.0
    ensures forall j :: 0 <= j < |s| && s[j].Some? ==> s[j].value.avg <= r.max
    ensures r.best.Some? ==>
              exists i :: 0 <= i < |s| && s[i] == r.best
                          && forall j :: 0 <= j < i && s[j].Some? ==> s[j].value.avg < r.max
    ensures r.best.None? <==> forall j :: 0 <= j < |s| && s[j].Some? ==> s[j].value.avg <= -1.0
    decreases |s|
  {
    if |s| == 0 then Choice(None, -1.0)
    else
      var prev := ChooseBest(s[..|s| - 1]);
      var a := s[|s| - 1];
      assert forall j :: 0 <= j < |s| - 1 ==> s[..|s| - 1][j] == s[j];
      if a.Some? && a.value.avg > prev.max then Choice(a, a.value.avg) else prev
  }

  const MinSentinel: real := 1000000.0
  const MaxSentinel: real := -1.0

  /** The running state of the after-state loop. `unset` records that some child
      answer was unset, which turns the sum into NaN in the source. */
  datatype Tally = Tally(min: real, sum: real, max: real, count: nat, unset: bool)

  function AvgOf(a: Option<Answer>): real
  {
    if a.Some? then a.value.avg else 0.0
  }

  /** Sum of the children's averages, right to left (the reference definition). */
  function SumAvg(s: seq<Option<Answer>>): real
    decreases |s|
  {
    if |s| == 0 then 0.0 else AvgOf(s[0]) + SumAvg(s[1..])
  }

  lemma {:induction false} SumAvgSnoc(s: seq<Option<Answer>>)
    requires |s| > 0
    ensures SumAvg(s) == SumAvg(s[..|s| - 1]) + AvgOf(s[|s| - 1])
    decreases |s|
  {
    if |s| > 1 {
      var t := s[1..];
      SumAvgSnoc(t);
      assert t[..|t| - 1] == s[..|s| - 1][1..];
      assert t[|t| - 1] == s[|s| - 1];
    }
  }

  /** The after-state loop, left to right: minimum starting from 1000000,
      running sum, maximum starting from -1. */
  function Accumulate(s: seq<Option<Answer>>): (r: Tally)
    ensures r.count == |s|
    ensures r.unset <==> exists j :: 0 <= j < |s| && s[j].None?
    ensures r.sum == SumAvg(s)
    ensures r.min <= MinSentinel && r.max >= MaxSentinel
    ensures forall j :: 0 <= j < |s| && s[j].Some? ==>
              r.min <= s[j].value.min && s[j].value.max <= r.max
    ensures r.min == MinSentinel || exists j :: 0 <= j < |s| && s[j].Some? && s[j].value.min == r.min
    ensures r.max == MaxSentinel || exists j :: 0 <= j < |s| && s[j].Some? && s[j].value.max == r.max
    decreases |s|
  {
    if |s| == 0 then Tally(MinSentinel, 0.0, MaxSentinel, 0, false)
    else
      var t := Accumulate(s[..|s| - 1]);
      var a := s[|s| - 1];
      SumAvgSnoc(s);
      assert forall j :: 0 <= j < |s| - 1 ==> s[..|s| - 1][j] == s[j];
      match a
      case None => Tally(t.min, t.sum, t.max, t.count + 1, true)
      case Some(x) =>
        Tally(if x.min < t.min then x.min else t.min, t.sum + x.avg,
              if x.max > t.max then x.max else t.max, t.count + 1, t.unset)
  }

  /** An after-state's answer: the minimum of the children's minima (capped at
      1000000), the mean of their averages, the maximum of their maxima. With no
      child, or an unset child, the average is NaN in the source and the answer
      is unset. */
  function Combine(s: seq<Option<Answer>>): (r: Option<Answer>)
    ensures r.Some? <==> |s| > 0 && forall j :: 0 <= j < |s| ==> s[j].Some?
    ensures r.Some? ==> r.value.avg == SumAvg(s) / (|s| as real)
    ensures r.Some? ==> forall j :: 0 <= j < |s| ==>
              r.value.min <= s[j].value.min && s[j].value.max <= r.value.max
    ensures r.Some? ==> r.value.min <= MinSentinel
                        && (r.value.min == MinSentinel || exists j :: 0 <= j < |s| && s[j].value.min == r.value.min)
    ensures r.Some? ==> r.value.max >= MaxSentinel
                        && (r.value.max == MaxSentinel || exists j :: 0 <= j < |s| && s[j].value.max == r.value.max)
  {
    var t := Accumulate(s);
    if t.unset || t.count == 0 then None
    else Some(Answer(t.min, t.sum / (t.count as real), t.max))
  }

  /** The children's answers, in the children's order. */
  function Answers(kids: seq<Node>, child: Node -> Option<Answer>): seq<Option<Answer>>
  {
    seq(|kids|, k requires 0 <= k < |kids| => child(kids[k]))
  }

  /** A position with no legal slide is worth its score, as minimum, average and maximum. */
  function Terminal(b: Board): Answer
  {
    var s := Score(b) as real;
    Answer(s, s, s)
  }

  /** A before-state's answer, given the outcomes of its four slides: its own
      score when no slide is legal, otherwise the best of its children's answers. */
  function BeforeValue(n: Node, outs: seq<Outcome>, child: Node -> Option<Answer>): Option<Answer>
    requires |outs| == 4
  {
    var kids := SlideChildren(n, outs, |outs|);
    if |kids| == 0 then Some(Terminal(n.cells)) else ChooseBest(Answers(kids, child)).best
  }

  /** The answer one solver step computes for `n` from its children's answers. */
  function NodeValue(n: Node, child: Node -> Option<Answer>): Option<Answer>
    requires WellFormed(n)
  {
    if n.act == Key.Place then BeforeValue(n, Slides(n.cells), child)
    else Combine(Answers(AfterChildren(n), child))
  }

  // ---------------------------------------------------------------------------
  // The memoised step

  datatype StepResult = StepResult(value: Option<Answer>, table: Table)

  /** Writes a computed answer at `key`. Writing an unset answer (NaN in the
      source) makes the entry unset, even if it was set before; no other entry
      is touched. */
  function Store(table: Table, key: int, value: Option<Answer>): (r: Table)
    ensures forall k :: k != key ==> (k in r <==> k in table) && (k in table ==> r[k] == table[k])
    ensures value.Some? ==> key in r && r[key] == value.value
    ensures value.None? ==> key !in r
    ensures value.None? && key !in table ==> r == table
  {
    if value.Some? then table[key := value.value] else table - {key}
  }

  /** One call of the solver's recursive step: return the entry the symmetry probe
      finds, or compute the answer and store it at the state's own key. */
  function BuildStep(table: Table, n: Node, child: Node -> Option<Answer>): (r: StepResult)
    requires WellFormed(n)
    ensures forall k :: k in table ==> k in r.table && r.table[k] == table[k]
    ensures forall k :: k in r.table && k !in table ==> k == Hash(n.cells, n.hint, n.act)
    ensures Known(table, n.cells, n.hint, n.act) ==>
              r.table == table && r.value == Some(table[CheckExist(table, n.cells, n.hint, n.act)])
    ensures !Known(table, n.cells, n.hint, n.act) ==>
              && r.value == NodeValue(n, child)
              && (Hash(n.cells, n.hint, n.act) in r.table <==> r.value.Some?)
              && (r.value.Some? ==> r.table[Hash(n.cells, n.hint, n.act)] == r.value.value)
  {
    var index := CheckExist(table, n.cells, n.hint, n.act);
    if index != NotFound then StepResult(Some(table[index]), table)
    else
      var key := Hash(n.cells, n.hint, n.act);
      assert key == ProbeKeys(n.cells, n.hint, n.act)[0] && key !in table;
      var value := NodeValue(n, child);
      StepResult(value, Store(table, key, value))
  }
}

=== FILE: search_laws.dfy ===
/** Properties of the solver step: which cells receive the new tile, that every
    after-state reached by a legal slide has at least one branch, what a
    before-state's answer is, and how the memoised step and the query agree. */
module SearchLaws {
  import opened Grid
  import opened GridLaws
  import opened Key
  import opened Memo
  import opened Search

  /** The cells eligible for the new tile after each slide. */
  lemma EligibleCellsByAction()
    ensures EligibleCells(Up) == [3, 4, 5]
    ensures EligibleCells(Down) == [0, 1, 2]
    ensures EligibleCells(Right) == [0, 3]
    ensures EligibleCells(Left) == [2, 5]
  {
  }

  /** Some cell among `cells` is empty on board `a`. */
  predicate EmptyAmong(a: Board, cells: seq<nat>)
  {
    exists k :: 0 <= k < |cells| && cells[k] < 6 && Cell(a, cells[k]) == 0
  }

  /** An up slide empties a cell of the bottom row. */
  lemma UpVacatesBottomRow(b: Board)
    requires Slide(b, 0).reward != IllegalReward
    ensures EmptyAmong(Slide(b, 0).board, EligibleCells(ActionOf(0)))
  {
    EligibleCellsByAction();
    var a := SlideUp(b).board;
    assert a.t3 == 0 || a.t4 == 0 || a.t5 == 0;
    if a.t3 == 0 { assert Cell(a, [3, 4, 5][0]) == 0; }
    else if a.t4 == 0 { assert Cell(a, [3, 4, 5][1]) == 0; }
    else { assert Cell(a, [3, 4, 5][2]) == 0; }
  }

  /** A right slide empties a cell of the left column. */
  lemma RightVacatesLeftColumn(b: Board)
    requires Slide(b, 1).reward != IllegalReward
    ensures EmptyAmong(Slide(b, 1).board, EligibleCells(ActionOf(1)))
  {
    EligibleCellsByAction();
    var a := SlideLeft(ReflectHorizontal(b)).board;
    assert a.t2 == 0 || a.t5 == 0;
    assert SlideRight(b).board == ReflectHorizontal(a);
    if a.t2 == 0 { assert Cell(ReflectHorizontal(a), [0, 3][0]) == 0; }
    else { assert Cell(ReflectHorizontal(a), [0, 3][1]) == 0; }
  }

  /** A down slide empties a cell of the top row. */
  lemma DownVacatesTopRow(b: Board)
    requires Slide(b, 2).reward != IllegalReward
    ensures EmptyAmong(Slide(b, 2).board, EligibleCells(ActionOf(2)))
  {
    EligibleCellsByAction();
    var a := SlideUp(ReflectVertical(b)).board;
    assert a.t3 == 0 || a.t4 == 0 || a.t5 == 0;
    assert SlideDown(b).board == ReflectVertical(a);
    if a.t3 == 0 { assert Cell(ReflectVertical(a), [0, 1, 2][0]) == 0; }
    else if a.t4 == 0 { assert Cell(ReflectVertical(a), [0, 1, 2][1]) == 0; }
    else { assert Cell(ReflectVertical(a), [0, 1, 2][2]) == 0; }
  }

  /** A left slide empties a cell of the right column. */
  lemma LeftVacatesRightColumn(b: Board)
    requires Slide(b, 3).reward != IllegalReward
    ensures EmptyAmong(Slide(b, 3).board, EligibleCells(ActionOf(3)))
  {
    EligibleCellsByAction();
    var a := SlideLeft(b).board;
    assert a.t2 == 0 || a.t5 == 0;
    if a.t2 == 0 { assert Cell(a, [2, 5][0]) == 0; }
    else { assert Cell(a, [2, 5][1]) == 0; }
  }

  /** A legal slide always empties a cell of the edge it moves away from, so
      the new tile always has somewhere to go. */
  lemma SlideVacatesEdge(b: Board, way: nat)
    requires way < 4 && Slide(b, way).reward != IllegalReward
    ensures EmptyAmong(Slide(b, way).board, EligibleCells(ActionOf(way)))
  {
    if way == 0 {
      UpVacatesBottomRow(b);
    } else if way == 1 {
      RightVacatesLeftColumn(b);
    } else if way == 2 {
      DownVacatesTopRow(b);
    } else {
      LeftVacatesRightColumn(b);
    }
  }

  /** Each child of a before-state is the board after a legal slide, tagged with
      that slide and carrying the parent's bag and hint. */
  lemma BeforeChildIsLegalSlide(n: Node, c: Node)
    requires c in BeforeChildren(n)
    ensures var w := Code(c.act);
            && w < 4 && c.act == ActionOf(w)
            && Slide(n.cells, w).reward != IllegalReward && c.cells == Slide(n.cells, w).board
            && c.bag == n.bag && c.hint == n.hint
  {
    var outs := Slides(n.cells);
    var kids := SlideChildren(n, outs, |outs|);
    var k :| 0 <= k < |kids| && kids[k] == c;
    var w := Code(c.act);
    assert c == SlideChild(n, outs, w) && Legal(outs, w);
    assert outs[w] == Slide(n.cells, w) by {
      if w == 0 {} else if w == 1 {} else if w == 2 {} else {}
    }
  }

  /** The after-state of a legal slide has at least one branch. */
  lemma AfterSlideBranches(c: Node, b: Board, way: nat)
    requires way < 4 && Slide(b, way).reward != IllegalReward
    requires c.cells == Slide(b, way).board && c.act == ActionOf(way) && 0 <= c.hint < 3
    ensures |AfterChildren(c)| > 0
  {
    SlideVacatesEdge(b, way);
    var cells := EligibleCells(c.act);
    var m :| 0 <= m < |cells| && cells[m] < 6 && Cell(c.cells, cells[m]) == 0;
    assert EmptyCount(c.cells, cells) > 0;
    var bag := BagUpdate(c.bag, c.hint);
    var j :| 0 <= j < 3 && Slot(bag, j) != 0;
    assert j in Draws(bag);
  }

  /** Every after-state a before-state slides into has at least one branch, so
      the after-state's average never divides by a zero count. */
  lemma AfterStateOfLegalSlideBranches(n: Node, c: Node)
    requires n.act == Key.Place && 0 <= n.hint < 3
    requires c in BeforeChildren(n)
    ensures |AfterChildren(c)| > 0
  {
    BeforeChildIsLegalSlide(n, c);
    AfterSlideBranches(c, n.cells, Code(c.act));
  }

  /** The solver's first call: the empty board after an up slide, a full bag and
      hint rank 1, branches over the three bottom cells and the two ranks left. */
  lemma FirstCallBranches()
    ensures |AfterChildren(Node(Board(0, 0, 0, 0, 0, 0), FullBag, 0, Up))| == 6
  {
    var n := Node(Board(0, 0, 0, 0, 0, 0), FullBag, 0, Up);
    EligibleCellsByAction();
    assert BagUpdate(FullBag, 0) == Bag(0, 1, 1);
    assert Draws(Bag(0, 1, 1)) == [1, 2];
    assert EmptyCount(n.cells, [3, 4, 5]) == 3;
  }

  /** Three draws of distinct ranks from a full bag empty it, and the refill makes
      all three ranks drawable again. */
  lemma BagCycleRestarts(x: int, y: int, z: int)
    requires {x, y, z} == {0, 1, 2}
    ensures BagUpdate(BagUpdate(BagUpdate(FullBag, x), y), z) == FullBag
    ensures Draws(BagUpdate(BagUpdate(BagUpdate(FullBag, x), y), z)) == [0, 1, 2]
  {
    assert x != y && y != z && x != z by {
      assert |{x, y, z}| == 3;
    }
    var b1 := BagUpdate(FullBag, x);
    assert Slot(b1, x) == 0 && forall j :: 0 <= j < 3 && j != x ==> Slot(b1, j) == 1;
    var b2 := BagUpdate(b1, y);
    assert Slot(b2, y) == 0 && Slot(b2, x) == 0;
    assert forall j :: 0 <= j < 3 && j != y && j != x ==> Slot(b2, j) == 1;
  }

  // ---------------------------------------------------------------------------
  // Before-states

  /** A before-state with no legal slide is worth (score, score, score). */
  lemma TerminalValue(n: Node, child: Node -> Option<Answer>)
    requires n.act == Key.Place
    requires forall w :: 0 <= w < 4 ==> Slide(n.cells, w).reward == IllegalReward
    ensures var s := Score(n.cells) as real; NodeValue(n, child) == Some(Answer(s, s, s))
  {
    var outs := Slides(n.cells);
    assert forall w :: 0 <= w < 4 ==> !Legal(outs, w);
  }

  /** The answer of the after-state behind slide `w` of a before-state. */
  function ChildAnswer(n: Node, outs: seq<Outcome>, child: Node -> Option<Answer>, w: nat): Option<Answer>
    requires w < |outs| == 4
  {
    child(SlideChild(n, outs, w))
  }

  /** Every legal slide among the first `m` opcodes has a child, and exactly the
      children of lower opcodes come before it. */
  lemma {:induction false} ChildIndex(n: Node, outs: seq<Outcome>, m: nat, w: nat) returns (k: nat)
    requires w < m <= |outs| == 4 && Legal(outs, w)
    ensures var kids := SlideChildren(n, outs, m);
            && k < |kids| && kids[k] == SlideChild(n, outs, w)
            && forall j :: 0 <= j < |kids| ==> (j < k <==> Code(kids[j].act) < w)
  {
    var prev := SlideChildren(n, outs, m - 1);
    var kids := SlideChildren(n, outs, m);
    assert forall j :: 0 <= j < |prev| ==> kids[j] == prev[j];
    if w == m - 1 {
      k := |prev|;
      assert kids[k] == SlideChild(n, outs, w);
    } else {
      k := ChildIndex(n, outs, m - 1, w);
    }
  }

  /** The position of the answer the scan keeps. */
  lemma ChosenIndex(s: seq<Option<Answer>>) returns (i: nat)
    requires ChooseBest(s).best.Some?
    ensures i < |s| && s[i] == ChooseBest(s).best
    ensures forall j :: 0 <= j < i && s[j].Some? ==> s[j].value.avg < ChooseBest(s).max
  {
    i :| 0 <= i < |s| && s[i] == ChooseBest(s).best
         && forall j :: 0 <= j < i && s[j].Some? ==> s[j].value.avg < ChooseBest(s).max;
  }

  /** The chosen answer of a before-state comes from a legal slide, and every
      legal slide of lower opcode has a smaller average or none. */
  lemma ChosenSlide(n: Node, outs: seq<Outcome>, child: Node -> Option<Answer>) returns (w: nat)
    requires |outs| == 4
    requires ChooseBest(Answers(SlideChildren(n, outs, |outs|), child)).best.Some?
    ensures w < 4 && Legal(outs, w)
    ensures ChooseBest(Answers(SlideChildren(n, outs, |outs|), child)).best == ChildAnswer(n, outs, child, w)
    ensures forall v :: 0 <= v < w && Legal(outs, v) && ChildAnswer(n, outs, child, v).Some? ==>
              ChildAnswer(n, outs, child, v).value.avg < ChildAnswer(n, outs, child, w).value.avg
  {
    var kids := SlideChildren(n, outs, |outs|);
    var s := Answers(kids, child);
    var c := ChooseBest(s);
    var i := ChosenIndex(s);
    w := Code(kids[i].act);
    assert kids[i] == SlideChild(n, outs, w);
    forall v | 0 <= v < w && Legal(outs, v) && ChildAnswer(n, outs, child, v).Some?
      ensures ChildAnswer(n, outs, child, v).value.avg < c.max
    {
      EarlierSlideBelow(n, outs, child, i, c.max, v);
    }
  }

  /** A legal slide of lower opcode than the child at position `i` sits before
      it, so it inherits any strict bound the answers before `i` satisfy. */
  lemma EarlierSlideBelow(n: Node, outs: seq<Outcome>, child: Node -> Option<Answer>, i: nat, bound: real, v: nat)
    requires |outs| == 4 && i < |SlideChildren(n, outs, |outs|)|
    requires var s := Answers(SlideChildren(n, outs, |outs|), child);
             forall j :: 0 <= j < i && s[j].Some? ==> s[j].value.avg < bound
    requires v < Code(SlideChildren(n, outs, |outs|)[i].act) && Legal(outs, v)
    requires ChildAnswer(n, outs, child, v).Some?
    ensures ChildAnswer(n, outs, child, v).value.avg < bound
  {
    var kids := SlideChildren(n, outs, |outs|);
    var j := ChildIndex(n, outs, |outs|, v);
    assert Answers(kids, child)[j] == ChildAnswer(n, outs, child, v);
  }

  /** Every legal slide's answer, when set, is at most the kept average. */
  lemma ChosenBound(n: Node, outs: seq<Outcome>, child: Node -> Option<Answer>)
    requires |outs| == 4
    ensures forall v :: 0 <= v < 4 && Legal(outs, v) && ChildAnswer(n, outs, child, v).Some? ==>
              ChildAnswer(n, outs, child, v).value.avg <= ChooseBest(Answers(SlideChildren(n, outs, |outs|), child)).max
  {
    var kids := SlideChildren(n, outs, |outs|);
    var s := Answers(kids, child);
    forall v | 0 <= v < 4 && Legal(outs, v) && ChildAnswer(n, outs, child, v).Some?
      ensures ChildAnswer(n, outs, child, v).value.avg <= ChooseBest(s).max
    {
      var k := ChildIndex(n, outs, |outs|, v);
      assert s[k] == ChildAnswer(n, outs, child, v);
    }
  }

  /** A before-state with a legal slide takes, among the legal slides, the child
      answer with strictly greatest average, the first one on ties, with that
      child's own minimum and maximum; it is unset exactly when no legal child
      has a set answer with average above -1. */
  lemma BestSlideValue(n: Node, outs: seq<Outcome>, child: Node -> Option<Answer>)
    requires |outs| == 4
    requires exists w :: 0 <= w < 4 && Legal(outs, w)
    ensures var r := BeforeValue(n, outs, child);
            r.Some? ==>
              exists w :: 0 <= w < 4 && Legal(outs, w) && r == ChildAnswer(n, outs, child, w)
                          && (forall v :: 0 <= v < 4 && Legal(outs, v) && ChildAnswer(n, outs, child, v).Some? ==>
                                ChildAnswer(n, outs, child, v).value.avg <= r.value.avg)
                          && (forall v :: 0 <= v < w && Legal(outs, v) && ChildAnswer(n, outs, child, v).Some? ==>
                                ChildAnswer(n, outs, child, v).value.avg < r.value.avg)
    ensures BeforeValue(n, outs, child).None? <==>
              forall v :: 0 <= v < 4 && Legal(outs, v) && ChildAnswer(n, outs, child, v).Some? ==>
                ChildAnswer(n, outs, child, v).value.avg <= -1.0
  {
    var kids := SlideChildren(n, outs, |outs|);
    var w0 :| 0 <= w0 < 4 && Legal(outs, w0);
    var k0 := ChildIndex(n, outs, |outs|, w0);
    var c := ChooseBest(Answers(kids, child));
    assert BeforeValue(n, outs, child) == c.best;
    ChosenBound(n, outs, child);
    if c.best.Some? {
      var w := ChosenSlide(n, outs, child);
    }
  }

  // ---------------------------------------------------------------------------
  // The memoised step and the query

  /** When the probe finds an entry the step returns it and never consults the
      children. */
  lemma MemoHitIgnoresChildren(table: Table, n: Node, c1: Node -> Option<Answer>, c2: Node -> Option<Answer>)
    requires WellFormed(n)
    requires Known(table, n.cells, n.hint, n.act)
    ensures BuildStep(table, n, c1) == BuildStep(table, n, c2)
  {
  }

  /** After a before-state's step, querying that state with its hint value
      (hint + 1) returns exactly the answer the step produced. */
  lemma SolveReturnsBuiltAnswer(table: Table, n: Node, child: Node -> Option<Answer>)
    requires n.act == Key.Place && n.hint >= 0
    ensures var r := BuildStep(table, n, child);
            Solve(r.table, n.cells, n.hint + 1, Before) == r.value
  {
    var r := BuildStep(table, n, child);
    if !Known(table, n.cells, n.hint, n.act) && r.value.Some? {
      var key := Hash(n.cells, n.hint, n.act);
      assert ProbeKeys(n.cells, n.hint, n.act)[0] == key && key in r.table;
      assert CheckExist(r.table, n.cells, n.hint, Key.Place) == key;
    } else if !Known(table, n.cells, n.hint, n.act) {
      assert r.table == table;
    }
  }
  // ---------------------------------------------------------------------------
  // The hint field of stored keys

  /** Every stored key carries a hint field of 0, 1 or 2: the solver only ever
      stores states whose hint indexes the bag. */
  predicate HintsStored(table: Table)
  {
    forall k :: k in table ==> Decode(k).hint < 3
  }

  /** The hint field of a key built from a hint 0..3 is that hint, whatever the cells. */
  lemma HashHintField(b: Board, hint: int, act: Action)
    requires 0 <= hint < 4
    ensures Decode(Hash(b, hint, act)).hint == hint
  {
    var q := Pack(Cells(b)) * 4 + hint;
    assert Hash(b, hint, act) == q * 8 + Code(act);
    assert Hash(b, hint, act) / 8 == q;
  }

  /** A step on a state whose hint indexes the bag keeps every stored hint field
      below 3. */
  lemma BuildStepKeepsHints(table: Table, n: Node, child: Node -> Option<Answer>)
    requires WellFormed(n) && 0 <= n.hint < 3
    requires HintsStored(table)
    ensures HintsStored(BuildStep(table, n, child).table)
  {
    HashHintField(n.cells, n.hint, n.act);
  }

  /** The key of hint -1 has 3 in its hint field, so it is never stored. */
  lemma NoHintKeyAbsent(table: Table, c: Board, act: Action)
    requires HintsStored(table)
    ensures Hash(c, -1, act) !in table
  {
    var q := Pack(Cells(c)) * 4 - 1;
    assert Hash(c, -1, act) == q * 8 + Code(act);
    assert Hash(c, -1, act) / 8 == q;
    assert q % 4 == 3;
  }

  lemma NoHintUnknown(table: Table, b: Board, act: Action)
    requires HintsStored(table)
    ensures !Known(table, b, -1, act)
  {
    NoHintKeyAbsent(table, b, act);
    NoHintKeyAbsent(table, ReflectVertical(b), act);
    NoHintKeyAbsent(table, ReflectHorizontal(b), act);
    NoHintKeyAbsent(table, Reverse(b), act);
  }

  /** The packed cells, written out: each cell is one base-16 digit. */
  lemma PackCells(b: Board)
    ensures Pack(Cells(b)) == ((((b.t0 * 16 + b.t1) * 16 + b.t2) * 16 + b.t3) * 16 + b.t4) * 16 + b.t5
  {
    var s1, s2, s3 := [b.t0], [b.t0, b.t1], [b.t0, b.t1, b.t2];
    var s4, s5 := [b.t0, b.t1, b.t2, b.t3], [b.t0, b.t1, b.t2, b.t3, b.t4];
    assert s1[..0] == [];
    assert Pack(s1) == b.t0;
    assert s2[..1] == s1;
    assert Pack(s2) == b.t0 * 16 + b.t1;
    assert s3[..2] == s2;
    assert Pack(s3) == Pack(s2) * 16 + b.t2;
    assert s4[..3] == s3;
    assert Pack(s4) == Pack(s3) * 16 + b.t3;
    assert s5[..4] == s4;
    assert Pack(s5) == Pack(s4) * 16 + b.t4;
    assert Cells(b)[..5] == s5;
    assert Pack(Cells(b)) == Pack(s5) * 16 + b.t5;
  }

  /** A key of hint -1 lies before index 0 of the solver's table exactly for the
      all-empty board; for any other board whose cells are below 16 it is a valid
      index. */
  lemma NoHintKeyRange(b: Board, act: Action)
    ensures Hash(b, -1, act) < 0 <==> b == Board(0, 0, 0, 0, 0, 0)
    ensures Nibbles(Cells(b)) && b != Board(0, 0, 0, 0, 0, 0) ==> 0 <= Hash(b, -1, act) < TableSize
  {
    var p := Pack(Cells(b));
    PackCells(b);
    assert Hash(b, -1, act) == p * 32 - 8 + Code(act);
    if b != Board(0, 0, 0, 0, 0, 0) {
      assert p >= 1;
    }
    if Nibbles(Cells(b)) {
      PackBound(Cells(b));
      assert Pow16(6) == 0x100_0000;
    }
  }

  /** A query without a hint (stored value 0) probes with hint -1, which borrows
      from the cell fields and leaves 3 in the hint field; no stored key has that,
      so the query finds nothing for any board and any declared state type. */
  lemma SolveWithoutHint(table: Table, b: Board, st: StateType)
    requires HintsStored(table)
    ensures Solve(table, b, 0, st).None?
  {
    forall act: Action
      ensures !Known(table, b, -1, act)
    {
      NoHintUnknown(table, b, act);
    }
  }
}
